=== FILE: README.md ===
# Sweep orchestration of measureme, modelled in Dafny

This project models the core of `sweep.py` in the measureme laboratory sweep
tool. The tool drives a set parameter through a list of setpoints. At each
setpoint it reads every followed instrument, autoranges each followed SR830
lock-in amplifier, and streams one record to a qcodes dataset whose schema
it registered beforehand.

The instruments, the clock and the qcodes dataset are not part of this model.
They are replaced as follows:

- **Instruments are oracles.** Each step's answers are one `Readings` value:
  the monotonic clock reading, each followed parameter's raw value, the
  `Probe`s that each lock-in's `autorange_once` calls see (R, sensitivity and
  whether a range change would be granted), and each lock-in's `snap('x', 'y')`.
- **The dataset is two logs.** `Measurement` holds the registrations made on
  it. `DataSaver` holds the records passed to `add_result`.
- **Sleeps are counted, not waited.** The settling sleeps of the autorange
  loop are its counter `sets`.
- **The sweep loop's calls are logged.** Each step's clock read, `set`,
  `pause`, parameter reads, autoranges, snaps and `add_result` are a log of
  `Trace.Call` values, so their order is part of the contract.

Modules, leaves first:

- `Instruments`: entity handles, followed entries, gains.
- `Autorange`: the `_autorange_srs` loop, specified by the predicate `IsRun`.
- `Duration`: the printed h/m/s split.
- `Dataset`: the registration and record logs.
- `MeasurementSchema`: what `_create_measurement` registers.
- `Records`: what `sweep` emits.
- `Trace`: the order of the sweep loop's calls.
- `SweepEngine`: the `Sweep` class.

In `_autorange_srs`, `autorange_once()` runs before `sets < max_changes` is
tested. So a signal that stays above 0.9·sens while every increase is
granted gets max(max_changes, 0) + 1 increase requests but only
max(max_changes, 0) settling sleeps (`Autorange.SaturatedRun`). An increase
the instrument refuses ends the loop at once, without a sleep
(`Autorange.StopsAtFirstUnchanged`).
When the counter ends the loop, the last granted change is not followed by a
sleep.

## Definitions

The contracts below are stated with these definitions:

- `Autorange.IsRun` (sweep.py:11-23): what a call of `_autorange_srs` did,
  given what each `autorange_once` call saw.
- `MeasurementSchema.Schema` (sweep.py:36-46): the registrations of
  `_create_measurement`, in order.
- `Records.StepRecord` (sweep.py:135-149): the `data` list of one step.
- `Records.SweepRecords` (sweep.py:127-152): the records of a whole sweep, one
  per setpoint.
- `Trace.SampleCalls`, `Trace.StepCalls`, `Trace.SweepCalls` (sweep.py:127-152):
  the calls of one record, of one step, and of the whole loop.
- `Duration.ToHms` (sweep.py:120, 157): `int(d/3600), int(d/60) % 60, int(d) % 60`.
- `Duration.MinimumDuration` (sweep.py:119): `len(vals)*inter_delay`.

## Model

| member | source | states |
|---|---|---|
| `Autorange.Decide` | sweep.py:13-19 | An increase is requested iff r > 0.9·sens. A decrease is requested iff r < 0.1·sens and not r > 0.9·sens, which for non-negative sens is just r < 0.1·sens. No request is made iff r is in the band [0.1·sens, 0.9·sens]. |
| `Autorange.Requests` | sweep.py:15-18 | Successive `autorange_once` calls issue at most one change request each. |
| `Autorange.AutorangeSrs` | sweep.py:11-23 | The loop ends with `IsRun`. Every call before the last requested a change that was granted. The last call made no granted change, or `sets >= max_changes`. `sets` never exceeds max(max_changes, 0). The requests are those of calls 0..sets, in order. |
| `Autorange.RunBounds` | sweep.py:20-23 | The loop makes at most max_changes settling sleeps and at most max_changes + 1 change requests. It sleeps once per granted request, so the request count is the sleep count or one more. |
| `Autorange.StopsAtFirstUnchanged` | sweep.py:21 | The loop stops no later than the first call that does not change the range: no request because the reading is in band, or a request the instrument refuses. |
| `Autorange.InBandFirst` | sweep.py:13-21 | A first reading that is already in band ends the loop with no request and no sleep. |
| `Autorange.RunUnique` | sweep.py:20-23 | `IsRun` determines the outcome uniquely: given its readings, the loop is deterministic. |
| `Autorange.SaturatedRun` | sweep.py:13-23 | If every reading is above 0.9·sens and every increment is granted, exactly max_changes + 1 increases are requested and `sets == max_changes` at exit (0 and 1 when max_changes ≤ 0). |
| `SweepEngine.Sweep.constructor` | sweep.py:26-28 | A new sweep follows nothing: both lists are empty. |
| `SweepEngine.Sweep.FollowParam` | sweep.py:30-31 | Appends exactly (p, gain) at the end of `_params`. Earlier entries and `_sr830s` are unchanged. |
| `SweepEngine.Sweep.FollowSr830` | sweep.py:33-34 | Appends exactly (l, name, gain) at the end of `_sr830s`. Earlier entries and `_params` are unchanged. |
| `SweepEngine.Sweep.CreateMeasurement` | sweep.py:36-46 | The fresh measurement's registrations are exactly `Schema(set_params, _params, _sr830s)`, made one `register_*` call at a time. |
| `MeasurementSchema.SchemaLayout` | sweep.py:36-46 | In order, the schema registers: each set parameter (no setpoints); then 'time' with label 'Time' and unit 's'; then each followed parameter; then X and Y of each lock-in, in registry order. It has \|set_params\| + 1 + \|_params\| + 2·\|_sr830s\| entries. |
| `MeasurementSchema.DependentsIndexedBySetpoints` | sweep.py:38-45 | The set parameters and 'time' have no setpoints. Every registration after them has setpoints (*set_params, 'time'). |
| `Dataset.Measurement.constructor` | sweep.py:37 | A new measurement has no registrations. |
| `Dataset.Measurement.RegisterParameter` | sweep.py:39 | Appends one parameter registration with its setpoints. |
| `Dataset.Measurement.RegisterCustomParameter` | sweep.py:40 | Appends one custom registration (name, label, unit) with no setpoints. |
| `Dataset.Measurement.Open` | sweep.py:125 | `meas.run()` yields a fresh data saver that fixes the current registrations as its schema and has no records yet. |
| `Dataset.DataSaver.constructor` | sweep.py:125 | A new data saver holds the given schema and no records. |
| `Dataset.DataSaver.AddResult` | sweep.py:152 | Appends exactly one record. |
| `SweepEngine.Sweep.Sample` | sweep.py:135-150 | The record built for one step is `StepRecord` of the step's readings. Each lock-in's autorange outcome satisfies `IsRun` with max_changes = 3. The instrument calls are `SampleCalls`: every parameter read in registry order, then each lock-in autoranged and snapped in turn (see `Trace.SampleOrder`). |
| `SweepEngine.Sweep.SampleLockins` | sweep.py:145-150 | The lock-in values are (l.X, x/gain), (l.Y, y/gain) per lock-in in registry order; each lock-in is autoranged (`IsRun`, max_changes = 3) and then snapped. |
| `SweepEngine.Sweep.Step` | sweep.py:128-152 | One pass of the loop appends exactly the step record, with elapsed time now − t0, to the saver. Its calls are `StepCalls`: clock, `set(setpoint)`, the pause if any, the sample calls, then `add_result`. |
| `SweepEngine.Sweep.RecordSteps` | sweep.py:127-152 | The loop adds one record per setpoint; after it, the saver's records are `SweepRecords` of the inputs, every lock-in was autoranged (`IsRun`) at every step, and the loop's calls are `SweepCalls`. |
| `SweepEngine.Sweep.Run` | sweep.py:117-158 | The schema is that of `_create_measurement(set_param)`. The records are `SweepRecords` of the inputs. The loop's calls are `SweepCalls`. Every lock-in is autoranged at every step. The printed estimate is the h/m/s of len(vals)·inter_delay. The completion report is the h/m/s of the elapsed clock time. |
| `Records.RecordLayout` | sweep.py:135-149 | A record holds 2 + \|_params\| + 2·\|_sr830s\| pairs: (set_param, setpoint); ('time', t); (p, raw/gain) for each parameter in registry order; then (l.X, x/gain) and (l.Y, y/gain) for each lock-in in registry order. |
| `Records.RecordMatchesSchema` | sweep.py:124-152 | Each record has as many pairs as the schema has registrations, and its k-th pair carries the entity of the k-th registration. |
| `Records.RecordEntitiesDistinct` | sweep.py:135-149 | No entity occurs twice in a record if: no followed parameter is the swept parameter or 'time'; no parameter or lock-in is followed twice; and no followed parameter is the X or Y channel of a followed lock-in. |
| `Records.FollowedChannelRepeats` | sweep.py:139-149 | The last condition is needed. Following l.X as a parameter and l as a lock-in puts (l.X, v) and (l.X, x) in the same record. |
| `Records.SweepRecordsAt` | sweep.py:127-152 | A sweep emits exactly len(vals) records. Record k is the step record at setpoint vals[k] with elapsed time `now_k - t0`. |
| `Records.SweepRecordsShape` | sweep.py:127-152 | Record k has the fixed length, starts with (set_param, vals[k]), and then has ('time', now_k - t0). |
| `Records.ElapsedTimesOrdered` | sweep.py:126-128 | With a monotonic clock, the recorded times are non-negative and non-decreasing over the sweep. |
| `Records.ThreeSetpointExample` | sweep.py:127-152 | Sweeping [0.0, 0.5, 1.0] with one parameter of gain 1.0 that reads 1.0, 2.0, 3.0 gives three records (setpoint, time, reading). |
| `Trace.SampleOrder` | sweep.py:139-150 | One record's calls are \|_params\| + 2·\|_sr830s\| long. First come the parameter reads in registry order, then for each lock-in j its autorange at \|_params\| + 2j and its snap right after. |
| `Trace.SnapFollowsAutorange` | sweep.py:145-147 | Every snap comes right after the autorange of the same lock-in, and every autorange is followed at once by a snap of that lock-in. |
| `Trace.SweepCallsAt` | sweep.py:127-152 | The steps run in the order of `vals`. The calls of the step at vals[k] follow, with nothing between, the calls of the steps before it, and these together are a prefix of the whole log. |
| `Trace.SweepCallsLength` | sweep.py:127-152 | Every step makes the same number of calls, so the log has len(vals) · `StepLength` entries. |
| `Trace.StepPauseTime` | sweep.py:132-133 | The `plt.pause(inter_delay)` calls of one step total exactly inter_delay, or 0 without an inter_delay. |
| `Trace.EstimateIsTotalPause` | sweep.py:119-133 | The minimum-duration estimate len(vals)·inter_delay is exactly the total of the sweep's `plt.pause(inter_delay)` calls. The redraw pause and the settling sleeps come on top of it. |
| `Trace.NoDelayNoPause` | sweep.py:132-133 | Without an inter_delay the log has no `plt.pause(inter_delay)` call. |
| `Duration.Split` | sweep.py:120 | For whole seconds d: h·3600 + m·60 + s == d, with 0 ≤ m < 60, 0 ≤ s < 60 and h ≥ 0. |
| `Duration.SplitUnique` | sweep.py:120 | The normal triple for d is unique, so `Split` inverts `Seconds`. |
| `Duration.Trunc` | sweep.py:120 | `int()` of a float truncates toward zero: it is the floor for non-negative values and the ceiling for negative ones. |
| `Duration.ToHmsWhole` | sweep.py:157 | For a non-negative real duration, the printed int(d/3600), int(d/60) % 60, int(d) % 60 is the normal split of int(d) seconds. |

## Left out

- Plotting and display (`_prepare_1d_plots`, `_update_1d_setax`, `_update_1d_param`, `_update_1d_sr830`, `_redraw_1d_plot`, `_display_1d_plot`, and the plot calls inside `sweep`). They are presentation only; the arctan2 phase is floating-point trigonometry.
- `print` output and the `%matplotlib qt` line. The printed h/m/s values are modelled; their formatting is not.
- Floating point. Readings, gains and times are Dafny reals, so rounding in `/` and in `0.9 * sens` is not modelled.
- Settling time. `time.sleep(10 * time_constant)` is modelled only as the counter `sets`; the time constant is not read.
- qcodes internals: parameter validation on registration and on `add_result`, and the commit when `meas.run()` exits. Only the registration and record logs are modelled.
- Exceptions. The code catches no exception, so an instrument error or an interrupt aborts `sweep`; the model covers uninterrupted runs only.
- Oracle lengths. `Sweep.Run` and `AutorangeSrs` require that the inputs answer every query the code makes: one `Readings` per setpoint, and at least max_changes + 1 probes per autorange.
- Zero gain. The code does not check for it, so division by a zero gain is excluded by a precondition, not modelled as an error.
- Handles. Instruments and parameters are represented by numeric identities; `label` and `unit` of real parameters are not modelled. A followed parameter is any `Entity`, so a lock-in channel can be followed as a parameter.
- The call log. Each method appends to its log next to the call it stands for. The instruments are oracles, so the log records the order of the code's statements. It does not record what the instruments did in response.
- Plot updates inside the loop (`_update_1d_setax`, `_update_1d_param`, `_update_1d_sr830`, `_redraw_1d_plot`) are not in the call log, for the reason given for plotting above. The log therefore omits two waits: the `plt.pause(0.001)` in `_redraw_1d_plot`, made once per step, and the settling sleeps of `_autorange_srs`. Both add to the time a sweep takes, on top of the pause total in `Trace.EstimateIsTotalPause`.

=== FILE: autorange.dfy ===
/** The lock-in autoranging loop `_autorange_srs` and its inner step `autorange_once`.
    The instrument is an oracle: each call of autorange_once sees one Probe. */
module Autorange {
  import opened Instruments

  /** A sensitivity change request: increment_sensitivity or decrement_sensitivity. */
  datatype Direction = Increase | Decrease

  /** What one call of autorange_once observes: the magnitude R, the current
      sensitivity, and what the instrument answers if asked to change range
      (false when it is already at the end of its range). */
  datatype Probe = Probe(r: real, sens: real, accepted: bool)

  /** What one run of the loop did: the change requests issued, in order, and the
      number of settling sleeps (the final value of `sets`). */
  datatype Outcome = Outcome(requests: seq<Direction>, settles: nat)

  /** The magnitude lies in the band the loop accepts without a change. */
  predicate InBand(r: real, sens: real) {
    0.1 * sens <= r <= 0.9 * sens
  }

  /** The decision of autorange_once: which change, if any, it requests. */
  function Decide(r: real, sens: real): (d: Option<Direction>)
    ensures d == Some(Increase) <==> r > 0.9 * sens
    ensures d == Some(Decrease) <==> r < 0.1 * sens && r <= 0.9 * sens
    ensures d == None <==> InBand(r, sens)
    ensures sens >= 0.0 ==> (d == Some(Decrease) <==> r < 0.1 * sens)
  {
    if r > 0.9 * sens then Some(Increase)
    else if r < 0.1 * sens then Some(Decrease)
    else None
  }

  /** The value autorange_once returns: a change was requested and granted. */
  predicate Changed(p: Probe) {
    Decide(p.r, p.sens).Some? && p.accepted
  }

  /** The change requests issued by successive autorange_once calls over `probes`. */
  function Requests(probes: seq<Probe>): (rs: seq<Direction>)
    ensures |rs| <= |probes|
  {
    if probes == [] then []
    else
      var n := |probes| - 1;
      Requests(probes[..n]) + match Decide(probes[n].r, probes[n].sens) {
        case Some(d) => [d]
        case None => []
      }
  }

  /** Most settling sleeps the loop can perform for a given max_changes. */
  function MaxSettles(maxChanges: int): nat {
    if maxChanges < 0 then 0 else maxChanges
  }

  /** `o` is what `_autorange_srs(srs, maxChanges)` does when its calls of
      autorange_once see probes[0], probes[1], ...: every call before the last
      requested a change that was granted, and the last call either did not change
      the range or found the counter at its bound. */
  predicate IsRun(probes: seq<Probe>, maxChanges: int, o: Outcome) {
    && o.settles <= MaxSettles(maxChanges)
    && o.settles < |probes|
    && (forall i :: 0 <= i < o.settles ==> Changed(probes[i]))
    && (!Changed(probes[o.settles]) || o.settles >= maxChanges)
    && o.requests == Requests(probes[..o.settles + 1])
  }

  /** _autorange_srs: call autorange_once until it returns False or `sets`
      reaches maxChanges, settling after each counted change. */
  method AutorangeSrs(probes: seq<Probe>, maxChanges: int := 1) returns (o: Outcome)
    requires MaxSettles(maxChanges) < |probes|
    ensures IsRun(probes, maxChanges, o)
  {
    var sets: nat := 0;
    var requests: seq<Direction> := [];
    while true
      invariant sets <= MaxSettles(maxChanges)
      invariant forall i :: 0 <= i < sets ==> Changed(probes[i])
      invariant requests == Requests(probes[..sets])
      decreases MaxSettles(maxChanges) - sets
    {
      // autorange_once: read R and the sensitivity, request at most one change
      var p := probes[sets];
      var changed := false;
      match Decide(p.r, p.sens) {
        case Some(d) =>
          requests := requests + [d];
          changed := p.accepted;
        case None =>
      }
      assert probes[..sets + 1][..sets] == probes[..sets];
      if !(changed && sets < maxChanges) {
        o := Outcome(requests, sets);
        return;
      }
      sets := sets + 1;
      // time.sleep(10 * time_constant): the settling pause is counted by `sets`
    }
  }

  /** Each granted change issued exactly one request. */
  lemma {:induction false} RequestsOfChanged(probes: seq<Probe>)
    requires forall i :: 0 <= i < |probes| ==> Changed(probes[i])
    ensures |Requests(probes)| == |probes|
  {
    if probes != [] {
      RequestsOfChanged(probes[..|probes| - 1]);
    }
  }

  /** Each request asks for an increase when every reading is above 0.9 * sens. */
  lemma {:induction false} RequestsOfSaturated(probes: seq<Probe>)
    requires forall i :: 0 <= i < |probes| ==> probes[i].r > 0.9 * probes[i].sens
    ensures Requests(probes) == seq(|probes|, _ => Increase)
  {
    if probes != [] {
      RequestsOfSaturated(probes[..|probes| - 1]);
    }
  }

  /** The loop issues at most max_changes + 1 requests and sleeps at most
      max_changes times; it sleeps once per granted request, and at most the last
      request goes without a settling sleep. */
  lemma RunBounds(probes: seq<Probe>, maxChanges: int, o: Outcome)
    requires IsRun(probes, maxChanges, o)
    ensures o.settles <= MaxSettles(maxChanges)
    ensures o.settles <= |o.requests| <= o.settles + 1 <= MaxSettles(maxChanges) + 1
  {
    var s := o.settles;
    assert probes[..s + 1][..s] == probes[..s];
    RequestsOfChanged(probes[..s]);
  }

  /** The loop stops at the first call that does not change the range. */
  lemma StopsAtFirstUnchanged(probes: seq<Probe>, maxChanges: int, o: Outcome, k: nat)
    requires IsRun(probes, maxChanges, o)
    requires k < |probes| && !Changed(probes[k])
    ensures o.settles <= k
  {
  }

  /** A reading already in band ends the loop at once, with no request. */
  lemma InBandFirst(probes: seq<Probe>, maxChanges: int, o: Outcome)
    requires IsRun(probes, maxChanges, o)
    requires InBand(probes[0].r, probes[0].sens)
    ensures o == Outcome([], 0)
  {
    assert o.settles == 0;
    assert probes[..1] == [probes[0]];
    assert probes[..1][..0] == [];
  }

  /** IsRun determines the outcome: the loop is deterministic given its readings. */
  lemma RunUnique(probes: seq<Probe>, maxChanges: int, o1: Outcome, o2: Outcome)
    requires IsRun(probes, maxChanges, o1) && IsRun(probes, maxChanges, o2)
    ensures o1 == o2
  {
  }

  /** With every reading above 0.9 * sens and every increment granted, the loop
      requests max_changes + 1 increases but sleeps only max_changes times. */
  lemma SaturatedRun(probes: seq<Probe>, maxChanges: int, o: Outcome)
    requires forall i :: 0 <= i < |probes| ==> probes[i].r > 0.9 * probes[i].sens && probes[i].accepted
    requires IsRun(probes, maxChanges, o)
    ensures o.settles == MaxSettles(maxChanges)
    ensures o.requests == seq(MaxSettles(maxChanges) + 1, _ => Increase)
  {
    assert Changed(probes[o.settles]);
    RequestsOfSaturated(probes[..o.settles + 1]);
  }
}

=== FILE: dataset.dfy ===
/** The dataset sink the sweep writes to, reduced to what the sweep does with it:
    a measurement is a log of parameter registrations, and a data saver is a log
    of the records passed to add_result. */
module Dataset {
  import opened Instruments

  /** One call of register_parameter or register_custom_parameter. */
  datatype Registration =
    | Parameter(entity: Entity, setpoints: seq<Entity>)
    | CustomParameter(entity: Entity, text: string, unit: string, setpoints: seq<Entity>)

  /** The (entity, value) pairs of one add_result call, in order. */
  type Record = seq<(Entity, real)>

  class Measurement {
    var registrations: seq<Registration>

    constructor ()
      ensures registrations == []
    {
      registrations := [];
    }

    /** register_parameter(p, setpoints=...); no setpoints is the empty sequence. */
    method RegisterParameter(p: Entity, setpoints: seq<Entity> := [])
      modifies this
      ensures registrations == old(registrations) + [Parameter(p, setpoints)]
    {
      registrations := registrations + [Parameter(p, setpoints)];
    }

    /** register_custom_parameter(name, label=text, unit=unit). */
    method RegisterCustomParameter(name: string, text: string, unit: string)
      modifies this
      ensures registrations == old(registrations) + [CustomParameter(Named(name), text, unit, [])]
    {
      registrations := registrations + [CustomParameter(Named(name), text, unit, [])];
    }

    /** meas.run(): a data saver over the registrations made so far. */
    method Open() returns (saver: DataSaver)
      ensures fresh(saver)
      ensures saver.schema == registrations && saver.results == []
    {
      saver := new DataSaver(registrations);
    }
  }

  class DataSaver {
    /** The registrations fixed when the run started; nothing changes them. */
    const schema: seq<Registration>
    var results: seq<Record>

    constructor (schema: seq<Registration>)
      ensures this.schema == schema && results == []
    {
      this.schema := schema;
      results := [];
    }

    /** add_result(*record). */
    method AddResult(record: Record)
      modifies this
      ensures results == old(results) + [record]
    {
      results := results + [record];
    }
  }
}

=== FILE: duration.dfy ===
/** The hours/minutes/seconds split the sweep prints for its minimum-duration
    estimate and for the time it took. */
module Duration {
  datatype Hms = Hms(hours: int, minutes: int, seconds: int)

  /** The number of seconds an h/m/s triple stands for. */
  function Seconds(t: Hms): int {
    t.hours * 3600 + t.minutes * 60 + t.seconds
  }

  predicate Normal(t: Hms) {
    t.hours >= 0 && 0 <= t.minutes < 60 && 0 <= t.seconds < 60
  }

  /** The split on whole seconds: d / 3600, (d / 60) % 60, d % 60. */
  function Split(d: nat): (t: Hms)
    ensures Normal(t)
    ensures Seconds(t) == d
  {
    var a := d / 60;
    assert d == 60 * a + d % 60;
    assert a == 60 * (a / 60) + a % 60;
    assert d / 3600 == a / 60 by { NestedDivision(d, a); }
    Hms(d / 3600, a % 60, d % 60)
  }

  lemma NestedDivision(d: nat, a: nat)
    requires a == d / 60
    ensures d / 3600 == a / 60
  {
    var h := a / 60;
    assert d == 3600 * h + 60 * (a % 60) + d % 60;
    assert 0 <= 60 * (a % 60) + d % 60 < 3600;
  }

  /** Only one normal triple stands for a given number of seconds, so Split
      inverts Seconds on normal triples. */
  lemma SplitUnique(d: nat, t: Hms)
    requires Normal(t) && Seconds(t) == d
    ensures t == Split(d)
  {
    var a := t.hours * 60 + t.minutes;
    DivisionUnique(d, t.hours, t.minutes * 60 + t.seconds, 3600);
    DivisionUnique(d, a, t.seconds, 60);
    DivisionUnique(a, t.hours, t.minutes, 60);
  }

  /** Euclidean division by a positive divisor has a unique quotient and remainder. */
  lemma DivisionUnique(d: int, q: int, r: int, n: int)
    requires n > 0 && 0 <= r < n && d == q * n + r
    ensures d / n == q && d % n == r
  {
    var q', r' := d / n, d % n;
    assert d == q' * n + r';
    if q - q' >= 1 {
      MultipleAtLeast(q - q', n);
      assert false;
    }
    if q' - q >= 1 {
      MultipleAtLeast(q' - q, n);
      assert false;
    }
  }

  lemma MultipleAtLeast(k: int, n: int)
    requires k >= 1 && n > 0
    ensures k * n >= n
  {
  }

  /** Python's int() on a float: truncation toward zero. */
  function Trunc(x: real): (n: int)
    ensures x >= 0.0 ==> n as real <= x < n as real + 1.0
    ensures x < 0.0 ==> n as real - 1.0 < x <= n as real
  {
    if x >= 0.0 then x.Floor else -((-x).Floor)
  }

  /** h, m, s = int(d/3600), int(d/60) % 60, int(d) % 60 on a duration in seconds. */
  function ToHms(d: real): Hms {
    Hms(Trunc(d / 3600.0), Trunc(d / 60.0) % 60, Trunc(d) % 60)
  }

  /** For a non-negative duration the printed triple is the normal split of its
      whole seconds: it reads back as int(d) seconds, with minutes and seconds
      below 60. */
  lemma ToHmsWhole(d: real)
    requires d >= 0.0
    ensures ToHms(d) == Split(d.Floor)
    ensures Normal(ToHms(d)) && Seconds(ToHms(d)) == d.Floor
  {
    var f := d.Floor;
    var h, a := Trunc(d / 3600.0), Trunc(d / 60.0);
    assert 3600 * h <= f < 3600 * h + 3600 by {
      assert (3600 * h) as real <= d < (3600 * h + 3600) as real;
    }
    DivisionUnique(f, h, f - 3600 * h, 3600);
    assert 60 * a <= f < 60 * a + 60 by {
      assert (60 * a) as real <= d < (60 * a + 60) as real;
    }
    DivisionUnique(f, a, f - 60 * a, 60);
  }

  /** The minimum-duration estimate: every setpoint waits inter_delay. */
  function MinimumDuration(steps: nat, interDelay: real): real {
    steps as real * interDelay
  }

  /** One more setpoint adds one more inter_delay to the estimate. */
  lemma MinimumDurationStep(steps: nat, interDelay: real)
    ensures MinimumDuration(steps + 1, interDelay) == MinimumDuration(steps, interDelay) + interDelay
  {
    assert (steps + 1) as real == steps as real + 1.0;
  }
}

=== FILE: instruments.dfy ===
/** Handles of the instruments a sweep talks to, the entities that appear in its
    dataset, and the entries of the followed-entity registry. */
module Instruments {

  datatype Option<+T> = None | Some(value: T)

  /** Identity of a gettable/settable instrument parameter. */
  type ParamId = nat

  /** Identity of an SR830 lock-in amplifier. */
  type LockinId = nat

  /** Anything that is registered in a measurement or carries a value in a record. */
  datatype Entity =
    | Param(id: ParamId)          // a plain parameter, swept or followed
    | LockinX(lockin: LockinId)   // the in-phase channel l.X of a lock-in
    | LockinY(lockin: LockinId)   // the quadrature channel l.Y of a lock-in
    | Named(name: string)         // a custom parameter registered by name

  /** The synthetic elapsed-time index every dependent value is recorded against. */
  const Time: Entity := Named("time")

  /** An entry of Sweep._params: any gettable entity (a plain parameter or a
      lock-in channel) and the gain its readings are divided by. */
  datatype FollowedParam = FollowedParam(param: Entity, gain: real)

  /** An entry of Sweep._sr830s: a lock-in, its display name and its gain. */
  datatype FollowedLockin = FollowedLockin(lockin: LockinId, name: Option<string>, gain: real)

  predicate ParamGainsNonZero(params: seq<FollowedParam>) {
    forall i :: 0 <= i < |params| ==> params[i].gain != 0.0
  }

  predicate LockinGainsNonZero(lockins: seq<FollowedLockin>) {
    forall j :: 0 <= j < |lockins| ==> lockins[j].gain != 0.0
  }
}

=== FILE: records.dfy ===
/** The record the sweep passes to add_result at each setpoint, as a function of
    what the instruments answered, and the records of a whole sweep. */
module Records {
  import opened Instruments
  import opened Autorange
  import opened Dataset
  import opened MeasurementSchema

  /** The lock-ins are autoranged with at most this many counted changes. */
  const SweepMaxChanges := 3

  /** What the instruments answer during one step of the sweep: the monotonic
      clock, each followed parameter's raw reading, what each lock-in's
      autorange_once calls see, and each lock-in's snap('x', 'y'). */
  datatype Readings = Readings(now: real, raw: seq<real>, probes: seq<seq<Probe>>, snaps: seq<(real, real)>)

  /** The readings answer every query one step makes of the followed entities. */
  predicate Answers(r: Readings, params: seq<FollowedParam>, lockins: seq<FollowedLockin>) {
    && |r.raw| == |params|
    && |r.snaps| == |lockins|
    && |r.probes| == |lockins|
    && forall j :: 0 <= j < |lockins| ==> MaxSettles(SweepMaxChanges) < |r.probes[j]|
  }

  /** The readings answer every step of a sweep. */
  predicate AllAnswer(steps: seq<Readings>, params: seq<FollowedParam>, lockins: seq<FollowedLockin>) {
    forall k :: 0 <= k < |steps| ==> Answers(steps[k], params, lockins)
  }

  /** outcomes[j] is what autoranging lock-in j did, given what it answered. */
  predicate AutorangedStep(r: Readings, outcomes: seq<Outcome>) {
    && |outcomes| == |r.probes|
    && forall j :: 0 <= j < |outcomes| ==> IsRun(r.probes[j], SweepMaxChanges, outcomes[j])
  }

  /** autoranged[k] is what autoranging did at step k, for every step. */
  predicate AutorangedAll(steps: seq<Readings>, autoranged: seq<seq<Outcome>>) {
    && |autoranged| == |steps|
    && forall k :: 0 <= k < |steps| ==> AutorangedStep(steps[k], autoranged[k])
  }

  /** Autoranging one more step extends the record of what autoranging did. */
  lemma AutorangedAllStep(steps: seq<Readings>, autoranged: seq<seq<Outcome>>, k: nat, outcomes: seq<Outcome>)
    requires k < |steps| && AutorangedAll(steps[..k], autoranged)
    requires AutorangedStep(steps[k], outcomes)
    ensures AutorangedAll(steps[..k + 1], autoranged + [outcomes])
  {
    assert steps[..k + 1][k] == steps[k];
  }

  /** (p, raw_p / gain_p) for each followed parameter, appended in registry order. */
  function ParamValues(params: seq<FollowedParam>, raw: seq<real>): seq<(Entity, real)>
    requires |raw| == |params| && ParamGainsNonZero(params)
  {
    if params == [] then []
    else
      var n := |params| - 1;
      ParamValues(params[..n], raw[..n]) + [(params[n].param, raw[n] / params[n].gain)]
  }

  /** (l.X, x / gain), (l.Y, y / gain) for each lock-in, extended in registry order. */
  function LockinValues(lockins: seq<FollowedLockin>, snaps: seq<(real, real)>): seq<(Entity, real)>
    requires |snaps| == |lockins| && LockinGainsNonZero(lockins)
  {
    if lockins == [] then []
    else
      var n := |lockins| - 1;
      var l := lockins[n];
      LockinValues(lockins[..n], snaps[..n])
        + [(LockinX(l.lockin), snaps[n].0 / l.gain), (LockinY(l.lockin), snaps[n].1 / l.gain)]
  }

  /** The record of one step: setpoint, elapsed time, parameters, lock-ins. */
  function StepRecord(setParam: ParamId, setpoint: real, t: real, params: seq<FollowedParam>,
                      lockins: seq<FollowedLockin>, raw: seq<real>, snaps: seq<(real, real)>): Record
    requires |raw| == |params| && |snaps| == |lockins|
    requires ParamGainsNonZero(params) && LockinGainsNonZero(lockins)
  {
    [(Param(setParam), setpoint), (Time, t)] + ParamValues(params, raw) + LockinValues(lockins, snaps)
  }

  /** The records of a sweep over `vals`, clock started at t0, one per setpoint. */
  function SweepRecords(setParam: ParamId, vals: seq<real>, t0: real, steps: seq<Readings>,
                        params: seq<FollowedParam>, lockins: seq<FollowedLockin>): seq<Record>
    requires |steps| == |vals|
    requires AllAnswer(steps, params, lockins)
    requires ParamGainsNonZero(params) && LockinGainsNonZero(lockins)
  {
    if vals == [] then []
    else
      var n := |vals| - 1;
      assert Answers(steps[n], params, lockins);
      SweepRecords(setParam, vals[..n], t0, steps[..n], params, lockins)
        + [StepRecord(setParam, vals[n], steps[n].now - t0, params, lockins, steps[n].raw, steps[n].snaps)]
  }

  /** The record of step k of a sweep. */
  function StepRecordOf(setParam: ParamId, vals: seq<real>, t0: real, steps: seq<Readings>,
                        params: seq<FollowedParam>, lockins: seq<FollowedLockin>, k: nat): Record
    requires k < |steps| == |vals|
    requires AllAnswer(steps, params, lockins)
    requires ParamGainsNonZero(params) && LockinGainsNonZero(lockins)
  {
    StepRecord(setParam, vals[k], steps[k].now - t0, params, lockins, steps[k].raw, steps[k].snaps)
  }

  lemma {:induction false} ParamValuesAt(params: seq<FollowedParam>, raw: seq<real>)
    requires |raw| == |params| && ParamGainsNonZero(params)
    ensures |ParamValues(params, raw)| == |params|
    ensures forall i :: 0 <= i < |params| ==>
      ParamValues(params, raw)[i] == (params[i].param, raw[i] / params[i].gain)
  {
    if params != [] {
      var n := |params| - 1;
      ParamValuesAt(params[..n], raw[..n]);
    }
  }

  lemma {:induction false} LockinValuesAt(lockins: seq<FollowedLockin>, snaps: seq<(real, real)>)
    requires |snaps| == |lockins| && LockinGainsNonZero(lockins)
    ensures |LockinValues(lockins, snaps)| == 2 * |lockins|
    ensures forall j :: 0 <= j < |lockins| ==>
      && LockinValues(lockins, snaps)[2 * j] == (LockinX(lockins[j].lockin), snaps[j].0 / lockins[j].gain)
      && LockinValues(lockins, snaps)[2 * j + 1] == (LockinY(lockins[j].lockin), snaps[j].1 / lockins[j].gain)
  {
    if lockins != [] {
      var n := |lockins| - 1;
      LockinValuesAt(lockins[..n], snaps[..n]);
    }
  }

  /** A step's record holds 2 + |params| + 2 * |lockins| pairs: the setpoint, the
      elapsed time, each parameter's reading divided by its gain, then each
      lock-in's X and Y divided by its gain, in registry order. */
  lemma RecordLayout(setParam: ParamId, setpoint: real, t: real, params: seq<FollowedParam>,
                     lockins: seq<FollowedLockin>, raw: seq<real>, snaps: seq<(real, real)>)
    requires |raw| == |params| && |snaps| == |lockins|
    requires ParamGainsNonZero(params) && LockinGainsNonZero(lockins)
    ensures var rec, l0 := StepRecord(setParam, setpoint, t, params, lockins, raw, snaps), 2 + |params|;
      && |rec| == 2 + |params| + 2 * |lockins|
      && rec[0] == (Param(setParam), setpoint)
      && rec[1] == (Time, t)
      && (forall i :: 0 <= i < |params| ==> rec[2 + i] == (params[i].param, raw[i] / params[i].gain))
      && (forall j :: 0 <= j < |lockins| ==>
            && rec[l0 + 2 * j] == (LockinX(lockins[j].lockin), snaps[j].0 / lockins[j].gain)
            && rec[l0 + 2 * j + 1] == (LockinY(lockins[j].lockin), snaps[j].1 / lockins[j].gain))
  {
    ParamValuesAt(params, raw);
    LockinValuesAt(lockins, snaps);
  }

  /** Each record lines up with the schema registered for the sweep: its k-th
      pair carries the entity of the k-th registration of _create_measurement(set_param). */
  lemma RecordMatchesSchema(setParam: ParamId, setpoint: real, t: real, params: seq<FollowedParam>,
                            lockins: seq<FollowedLockin>, raw: seq<real>, snaps: seq<(real, real)>)
    requires |raw| == |params| && |snaps| == |lockins|
    requires ParamGainsNonZero(params) && LockinGainsNonZero(lockins)
    ensures var rec, s := StepRecord(setParam, setpoint, t, params, lockins, raw, snaps), Schema([setParam], params, lockins);
      && |rec| == |s|
      && forall k :: 0 <= k < |rec| ==> rec[k].0 == s[k].entity
  {
    var rec, s := StepRecord(setParam, setpoint, t, params, lockins, raw, snaps), Schema([setParam], params, lockins);
    RecordLayout(setParam, setpoint, t, params, lockins, raw, snaps);
    SchemaLayout([setParam], params, lockins);
    var l0 := 2 + |params|;
    forall k | 0 <= k < |rec|
      ensures rec[k].0 == s[k].entity
    {
      if 2 <= k < l0 {
        var i := k - 2;
        assert rec[2 + i] == (params[i].param, raw[i] / params[i].gain);
        assert s[|[setParam]| + 1 + i] == Parameter(params[i].param, Dependencies([setParam]));
      } else if l0 <= k {
        var j, deps := (k - l0) / 2, Dependencies([setParam]);
        var sl0 := |[setParam]| + 1 + |params|;
        assert sl0 == l0;
        assert s[sl0 + 2 * j] == Parameter(LockinX(lockins[j].lockin), deps);
        assert s[sl0 + 2 * j + 1] == Parameter(LockinY(lockins[j].lockin), deps);
        assert rec[l0 + 2 * j].0 == LockinX(lockins[j].lockin);
        assert rec[l0 + 2 * j + 1].0 == LockinY(lockins[j].lockin);
        assert k == l0 + 2 * j || k == l0 + 2 * j + 1;
      }
    }
  }

  /** When the swept parameter is not followed and no entity is followed twice,
      no entity appears twice in a record. */
  lemma RecordEntitiesDistinct(setParam: ParamId, setpoint: real, t: real, params: seq<FollowedParam>,
                               lockins: seq<FollowedLockin>, raw: seq<real>, snaps: seq<(real, real)>)
    requires |raw| == |params| && |snaps| == |lockins|
    requires ParamGainsNonZero(params) && LockinGainsNonZero(lockins)
    requires forall i :: 0 <= i < |params| ==> params[i].param != Param(setParam) && params[i].param != Time
    requires forall i, i' :: 0 <= i < i' < |params| ==> params[i].param != params[i'].param
    requires forall i, j :: 0 <= i < |params| && 0 <= j < |lockins| ==>
      params[i].param != LockinX(lockins[j].lockin) && params[i].param != LockinY(lockins[j].lockin)
    requires forall j, j' :: 0 <= j < j' < |lockins| ==> lockins[j].lockin != lockins[j'].lockin
    ensures var rec := StepRecord(setParam, setpoint, t, params, lockins, raw, snaps);
      forall k, k' :: 0 <= k < k' < |rec| ==> rec[k].0 != rec[k'].0
  {
    var rec := StepRecord(setParam, setpoint, t, params, lockins, raw, snaps);
    RecordLayout(setParam, setpoint, t, params, lockins, raw, snaps);
    var l0 := 2 + |params|;
    forall k, k' | 0 <= k < k' < |rec|
      ensures rec[k].0 != rec[k'].0
    {
      if k' < l0 {
        if 2 <= k {
          assert rec[2 + (k - 2)].0 == params[k - 2].param;
        }
        if 2 <= k' {
          assert rec[2 + (k' - 2)].0 == params[k' - 2].param;
        }
      } else {
        var j' := (k' - l0) / 2;
        assert rec[l0 + 2 * j'].0 == LockinX(lockins[j'].lockin);
        assert rec[l0 + 2 * j' + 1].0 == LockinY(lockins[j'].lockin);
        if l0 <= k {
          var j := (k - l0) / 2;
          assert rec[l0 + 2 * j].0 == LockinX(lockins[j].lockin);
          assert rec[l0 + 2 * j + 1].0 == LockinY(lockins[j].lockin);
        } else if 2 <= k {
          assert rec[2 + (k - 2)].0 == params[k - 2].param;
        }
      }
    }
  }

  /** A sweep emits one record per setpoint, in order: record k is the record of
      step k, taken at setpoint vals[k] and elapsed time steps[k].now - t0. */
  /** The registry does not stop a lock-in channel from being followed as a
      parameter too: following l.X and the lock-in l puts l.X twice in a record. */
  lemma FollowedChannelRepeats(setParam: ParamId, setpoint: real, t: real, l: LockinId, v: real, x: real, y: real)
    ensures var rec := StepRecord(setParam, setpoint, t, [FollowedParam(LockinX(l), 1.0)],
                                  [FollowedLockin(l, None, 1.0)], [v], [(x, y)]);
      |rec| == 5 && rec[2] == (LockinX(l), v) && rec[3] == (LockinX(l), x)
  {
    RecordLayout(setParam, setpoint, t, [FollowedParam(LockinX(l), 1.0)],
                 [FollowedLockin(l, None, 1.0)], [v], [(x, y)]);
  }

  lemma {:induction false} SweepRecordsAt(setParam: ParamId, vals: seq<real>, t0: real, steps: seq<Readings>,
                                          params: seq<FollowedParam>, lockins: seq<FollowedLockin>)
    requires |steps| == |vals|
    requires AllAnswer(steps, params, lockins)
    requires ParamGainsNonZero(params) && LockinGainsNonZero(lockins)
    ensures var rs := SweepRecords(setParam, vals, t0, steps, params, lockins);
      && |rs| == |vals|
      && forall k :: 0 <= k < |vals| ==>
           rs[k] == StepRecord(setParam, vals[k], steps[k].now - t0, params, lockins, steps[k].raw, steps[k].snaps)
  {
    if vals != [] {
      var n := |vals| - 1;
      SweepRecordsAt(setParam, vals[..n], t0, steps[..n], params, lockins);
    }
  }

  /** Record k of a sweep starts with (set_param, vals[k]) and ('time', elapsed)
      and has the fixed length 2 + |params| + 2 * |lockins|. */
  lemma SweepRecordsShape(setParam: ParamId, vals: seq<real>, t0: real, steps: seq<Readings>,
                          params: seq<FollowedParam>, lockins: seq<FollowedLockin>)
    requires |steps| == |vals|
    requires AllAnswer(steps, params, lockins)
    requires ParamGainsNonZero(params) && LockinGainsNonZero(lockins)
    ensures var rs := SweepRecords(setParam, vals, t0, steps, params, lockins);
      && |rs| == |vals|
      && forall k :: 0 <= k < |vals| ==>
           && |rs[k]| == 2 + |params| + 2 * |lockins|
           && rs[k][0] == (Param(setParam), vals[k])
           && rs[k][1] == (Time, steps[k].now - t0)
  {
    var rs := SweepRecords(setParam, vals, t0, steps, params, lockins);
    SweepRecordsAt(setParam, vals, t0, steps, params, lockins);
    forall k | 0 <= k < |vals|
      ensures |rs[k]| == 2 + |params| + 2 * |lockins|
      ensures rs[k][0] == (Param(setParam), vals[k]) && rs[k][1] == (Time, steps[k].now - t0)
    {
      RecordLayout(setParam, vals[k], steps[k].now - t0, params, lockins, steps[k].raw, steps[k].snaps);
    }
  }

  /** With a monotonic clock started at t0, the recorded elapsed times are
      non-negative and non-decreasing across the sweep. */
  lemma ElapsedTimesOrdered(setParam: ParamId, vals: seq<real>, t0: real, steps: seq<Readings>,
                            params: seq<FollowedParam>, lockins: seq<FollowedLockin>)
    requires |steps| == |vals|
    requires AllAnswer(steps, params, lockins)
    requires ParamGainsNonZero(params) && LockinGainsNonZero(lockins)
    requires forall k :: 0 <= k < |steps| ==> t0 <= steps[k].now
    requires forall k, k' :: 0 <= k <= k' < |steps| ==> steps[k].now <= steps[k'].now
    ensures var rs := SweepRecords(setParam, vals, t0, steps, params, lockins);
      && |rs| == |vals|
      && (forall k :: 0 <= k < |rs| ==> |rs[k]| >= 2 && rs[k][1].1 >= 0.0)
      && (forall k, k' :: 0 <= k <= k' < |rs| ==> |rs[k]| >= 2 && |rs[k']| >= 2 && rs[k][1].1 <= rs[k'][1].1)
  {
    SweepRecordsShape(setParam, vals, t0, steps, params, lockins);
  }

  /** Three setpoints, one followed parameter of gain 1.0 reading 1.0, 2.0, 3.0
      and no lock-in give three records of (setpoint, time, reading). */
  lemma ThreeSetpointExample(vg: ParamId, p: ParamId, t0: real, ts: seq<real>)
    requires |ts| == 3
    ensures var steps := seq(3, k requires 0 <= k < 3 => Readings(ts[k], [k as real + 1.0], [], []));
      SweepRecords(vg, [0.0, 0.5, 1.0], t0, steps, [FollowedParam(Param(p), 1.0)], [])
      == [[(Param(vg), 0.0), (Time, ts[0] - t0), (Param(p), 1.0)],
          [(Param(vg), 0.5), (Time, ts[1] - t0), (Param(p), 2.0)],
          [(Param(vg), 1.0), (Time, ts[2] - t0), (Param(p), 3.0)]]
  {
    var steps := seq(3, k requires 0 <= k < 3 => Readings(ts[k], [k as real + 1.0], [], []));
    var params := [FollowedParam(Param(p), 1.0)];
    var vals := [0.0, 0.5, 1.0];
    SweepRecordsAt(vg, vals, t0, steps, params, []);
    forall k | 0 <= k < 3
      ensures StepRecord(vg, vals[k], steps[k].now - t0, params, [], steps[k].raw, steps[k].snaps)
              == [(Param(vg), vals[k]), (Time, ts[k] - t0), (Param(p), k as real + 1.0)]
    {
      ParamValuesAt(params, steps[k].raw);
      assert ParamValues(params, steps[k].raw) == [(Param(p), k as real + 1.0)];
    }
  }
}

=== FILE: schema.dfy ===
/** The registrations `_create_measurement(*set_params)` makes, as a function of
    the set parameters and the followed-entity registry, and their layout. */
module MeasurementSchema {
  import opened Instruments
  import opened Dataset

  /** The setpoints of every dependent registration: (*set_params, 'time'). */
  function Dependencies(setParams: seq<ParamId>): (deps: seq<Entity>)
    ensures |deps| == |setParams| + 1 && deps[|setParams|] == Time
    ensures forall i :: 0 <= i < |setParams| ==> deps[i] == Param(setParams[i])
  {
    seq(|setParams|, i requires 0 <= i < |setParams| => Param(setParams[i])) + [Time]
  }

  /** The registration of the elapsed-time index. */
  const TimeRegistration: Registration := CustomParameter(Time, "Time", "s", [])

  /** register_parameter(p) for each set parameter, in order. */
  function SetParamRegistrations(setParams: seq<ParamId>): seq<Registration> {
    if setParams == [] then []
    else
      var n := |setParams| - 1;
      SetParamRegistrations(setParams[..n]) + [Parameter(Param(setParams[n]), [])]
  }

  /** register_parameter(p, setpoints=deps) for each followed parameter, in order. */
  function FollowedRegistrations(params: seq<FollowedParam>, deps: seq<Entity>): seq<Registration> {
    if params == [] then []
    else
      var n := |params| - 1;
      FollowedRegistrations(params[..n], deps) + [Parameter(params[n].param, deps)]
  }

  /** register_parameter(l.X, ...) then register_parameter(l.Y, ...) for each lock-in. */
  function LockinRegistrations(lockins: seq<FollowedLockin>, deps: seq<Entity>): seq<Registration> {
    if lockins == [] then []
    else
      var n := |lockins| - 1;
      LockinRegistrations(lockins[..n], deps)
        + [Parameter(LockinX(lockins[n].lockin), deps), Parameter(LockinY(lockins[n].lockin), deps)]
  }

  /** Every registration of _create_measurement, in the order it makes them. */
  function Schema(setParams: seq<ParamId>, params: seq<FollowedParam>, lockins: seq<FollowedLockin>): seq<Registration> {
    var deps := Dependencies(setParams);
    SetParamRegistrations(setParams) + [TimeRegistration]
      + FollowedRegistrations(params, deps) + LockinRegistrations(lockins, deps)
  }

  lemma {:induction false} SetParamRegistrationsAt(setParams: seq<ParamId>)
    ensures |SetParamRegistrations(setParams)| == |setParams|
    ensures forall i :: 0 <= i < |setParams| ==>
      SetParamRegistrations(setParams)[i] == Parameter(Param(setParams[i]), [])
  {
    if setParams != [] {
      SetParamRegistrationsAt(setParams[..|setParams| - 1]);
    }
  }

  lemma {:induction false} FollowedRegistrationsAt(params: seq<FollowedParam>, deps: seq<Entity>)
    ensures |FollowedRegistrations(params, deps)| == |params|
    ensures forall i :: 0 <= i < |params| ==>
      FollowedRegistrations(params, deps)[i] == Parameter(params[i].param, deps)
  {
    if params != [] {
      FollowedRegistrationsAt(params[..|params| - 1], deps);
    }
  }

  lemma {:induction false} LockinRegistrationsAt(lockins: seq<FollowedLockin>, deps: seq<Entity>)
    ensures |LockinRegistrations(lockins, deps)| == 2 * |lockins|
    ensures forall j :: 0 <= j < |lockins| ==>
      && LockinRegistrations(lockins, deps)[2 * j] == Parameter(LockinX(lockins[j].lockin), deps)
      && LockinRegistrations(lockins, deps)[2 * j + 1] == Parameter(LockinY(lockins[j].lockin), deps)
  {
    if lockins != [] {
      LockinRegistrationsAt(lockins[..|lockins| - 1], deps);
    }
  }

  /** The schema registers each set parameter, then 'time', then each followed
      parameter, then X and Y of each lock-in, in registry order. */
  lemma SchemaLayout(setParams: seq<ParamId>, params: seq<FollowedParam>, lockins: seq<FollowedLockin>)
    ensures var s, deps, p0, l0 := Schema(setParams, params, lockins), Dependencies(setParams),
                                   |setParams| + 1, |setParams| + 1 + |params|;
      && |s| == |setParams| + 1 + |params| + 2 * |lockins|
      && (forall i :: 0 <= i < |setParams| ==> s[i] == Parameter(Param(setParams[i]), []))
      && s[|setParams|] == TimeRegistration
      && (forall i :: 0 <= i < |params| ==> s[p0 + i] == Parameter(params[i].param, deps))
      && (forall j :: 0 <= j < |lockins| ==>
            && s[l0 + 2 * j] == Parameter(LockinX(lockins[j].lockin), deps)
            && s[l0 + 2 * j + 1] == Parameter(LockinY(lockins[j].lockin), deps))
  {
    var deps := Dependencies(setParams);
    SetParamRegistrationsAt(setParams);
    FollowedRegistrationsAt(params, deps);
    LockinRegistrationsAt(lockins, deps);
  }

  /** The set parameters and 'time' are top-level indices; every registration
      after them is indexed by (*set_params, 'time'). */
  lemma DependentsIndexedBySetpoints(setParams: seq<ParamId>, params: seq<FollowedParam>, lockins: seq<FollowedLockin>)
    ensures var s := Schema(setParams, params, lockins);
      && |s| == |setParams| + 1 + |params| + 2 * |lockins|
      && (forall i :: 0 <= i <= |setParams| ==> s[i].setpoints == [])
      && (forall i :: |setParams| < i < |s| ==> s[i].setpoints == Dependencies(setParams))
  {
    var s, deps := Schema(setParams, params, lockins), Dependencies(setParams);
    SchemaLayout(setParams, params, lockins);
    var p0, l0 := |setParams| + 1, |setParams| + 1 + |params|;
    forall i | |setParams| < i < |s|
      ensures s[i].setpoints == deps
    {
      if i < l0 {
        var k := i - p0;
        assert s[p0 + k] == Parameter(params[k].param, deps);
      } else {
        var j := (i - l0) / 2;
        assert s[l0 + 2 * j] == Parameter(LockinX(lockins[j].lockin), deps);
        assert s[l0 + 2 * j + 1] == Parameter(LockinY(lockins[j].lockin), deps);
        assert i == l0 + 2 * j || i == l0 + 2 * j + 1;
      }
    }
  }
}

=== FILE: sweep.dfy ===
/** The Sweep object: its followed-entity registry, the measurement it builds,
    and the single-axis sweep loop that streams one record per setpoint. */
module SweepEngine {
  import opened Instruments
  import opened Autorange
  import opened Duration
  import opened Dataset
  import opened MeasurementSchema
  import opened Records
  import opened Trace

  class Sweep {
    /** Followed lock-ins, in the order follow_sr830 was called (_sr830s). */
    var sr830s: seq<FollowedLockin>
    /** Followed parameters, in the order follow_param was called (_params). */
    var params: seq<FollowedParam>

    constructor ()
      ensures sr830s == [] && params == []
    {
      sr830s := [];
      params := [];
    }

    /** follow_param(p, gain=1.0): append one entry; nothing else changes. */
    method FollowParam(p: Entity, gain: real := 1.0)
      modifies this
      ensures params == old(params) + [FollowedParam(p, gain)]
      ensures sr830s == old(sr830s)
    {
      params := params + [FollowedParam(p, gain)];
    }

    /** follow_sr830(l, name=None, gain=1.0): append one entry; nothing else changes. */
    method FollowSr830(l: LockinId, name: Option<string> := None, gain: real := 1.0)
      modifies this
      ensures sr830s == old(sr830s) + [FollowedLockin(l, name, gain)]
      ensures params == old(params)
    {
      sr830s := sr830s + [FollowedLockin(l, name, gain)];
    }

    /** _create_measurement(*set_params): register the set parameters, 'time',
        each followed parameter and X and Y of each lock-in. */
    method CreateMeasurement(setParams: seq<ParamId>) returns (meas: Measurement)
      ensures fresh(meas)
      ensures meas.registrations == Schema(setParams, params, sr830s)
    {
      meas := new Measurement();
      var deps := Dependencies(setParams);
      for i := 0 to |setParams|
        invariant meas.registrations == SetParamRegistrations(setParams[..i])
      {
        meas.RegisterParameter(Param(setParams[i]));
        assert setParams[..i + 1][..i] == setParams[..i];
      }
      assert setParams[..|setParams|] == setParams;
      meas.RegisterCustomParameter("time", "Time", "s");
      ghost var head := meas.registrations;
      for i := 0 to |params|
        invariant meas.registrations == head + FollowedRegistrations(params[..i], deps)
      {
        meas.RegisterParameter(params[i].param, deps);
        assert params[..i + 1][..i] == params[..i];
      }
      assert params[..|params|] == params;
      head := meas.registrations;
      for j := 0 to |sr830s|
        invariant meas.registrations == head + LockinRegistrations(sr830s[..j], deps)
      {
        var l := sr830s[j];
        meas.RegisterParameter(LockinX(l.lockin), deps);
        meas.RegisterParameter(LockinY(l.lockin), deps);
        assert sr830s[..j + 1][..j] == sr830s[..j];
      }
      assert sr830s[..|sr830s|] == sr830s;
    }

    /** The body of one step after the setpoint is applied: read each followed
        parameter, then autorange and snap each lock-in, building the record.
        `calls` logs the instrument calls in the order they are made. */
    method Sample(setParam: ParamId, setpoint: real, t: real, r: Readings)
      returns (data: Record, autoranged: seq<Outcome>, calls: seq<Call>)
      requires Answers(r, params, sr830s)
      requires ParamGainsNonZero(params) && LockinGainsNonZero(sr830s)
      ensures data == StepRecord(setParam, setpoint, t, params, sr830s, r.raw, r.snaps)
      ensures AutorangedStep(r, autoranged)
      ensures calls == SampleCalls(params, sr830s)
    {
      var head: Record := [(Param(setParam), setpoint), (Time, t)];
      data, calls := head, [];
      for i := 0 to |params|
        invariant data == head + ParamValues(params[..i], r.raw[..i])
        invariant calls == ReadCalls(params[..i])
      {
        calls := calls + [Read(params[i].param)];
        var v := r.raw[i];
        v := v / params[i].gain;
        data := data + [(params[i].param, v)];
        assert params[..i + 1][..i] == params[..i];
        assert r.raw[..i + 1][..i] == r.raw[..i];
      }
      assert params[..|params|] == params && r.raw[..|params|] == r.raw;
      var values, lockinCalls;
      values, autoranged, lockinCalls := SampleLockins(r);
      data, calls := data + values, calls + lockinCalls;
    }

    /** The lock-in half of one step: autorange each lock-in, then snap its X
        and Y, in registry order. */
    method SampleLockins(r: Readings)
      returns (values: seq<(Entity, real)>, autoranged: seq<Outcome>, calls: seq<Call>)
      requires Answers(r, params, sr830s)
      requires LockinGainsNonZero(sr830s)
      ensures values == LockinValues(sr830s, r.snaps)
      ensures AutorangedStep(r, autoranged)
      ensures calls == LockinCalls(sr830s)
    {
      values, autoranged, calls := [], [], [];
      for j := 0 to |sr830s|
        invariant values == LockinValues(sr830s[..j], r.snaps[..j])
        invariant calls == LockinCalls(sr830s[..j])
        invariant |autoranged| == j
        invariant forall j' :: 0 <= j' < j ==> IsRun(r.probes[j'], SweepMaxChanges, autoranged[j'])
      {
        var l := sr830s[j];
        var o := AutorangeSrs(r.probes[j], SweepMaxChanges);
        autoranged := autoranged + [o];
        var (x, y) := r.snaps[j];
        calls := calls + [AutorangeLockin(l.lockin), Snap(l.lockin)];
        x, y := x / l.gain, y / l.gain;
        values := values + [(LockinX(l.lockin), x), (LockinY(l.lockin), y)];
        assert sr830s[..j + 1][..j] == sr830s[..j];
        assert r.snaps[..j + 1][..j] == r.snaps[..j];
      }
      assert sr830s[..|sr830s|] == sr830s && r.snaps[..|sr830s|] == r.snaps;
    }

    /** One pass of the `for` loop of sweep: read the clock, set the setpoint,
        pause, sample and add the record to `saver`. */
    method Step(saver: DataSaver, setParam: ParamId, setpoint: real, interDelay: Option<real>,
                t0: real, r: Readings)
      returns (outcomes: seq<Outcome>, calls: seq<Call>)
      requires Answers(r, params, sr830s)
      requires ParamGainsNonZero(params) && LockinGainsNonZero(sr830s)
      modifies saver
      ensures saver.results
           == old(saver.results) + [StepRecord(setParam, setpoint, r.now - t0, params, sr830s, r.raw, r.snaps)]
      ensures AutorangedStep(r, outcomes)
      ensures calls == StepCalls(setParam, setpoint, interDelay, params, sr830s)
    {
      var t := r.now - t0;
      calls := [Clock, Set(setParam, setpoint)];
      if interDelay.Some? {
        calls := calls + [Pause(interDelay.value)];
      }
      var data, sampled;
      data, outcomes, sampled := Sample(setParam, setpoint, t, r);
      calls := calls + sampled;
      saver.AddResult(data);
      calls := calls + [AddResult];
    }

    /** The `for` loop of sweep: one step per setpoint, each adding its record
        to `saver`. `calls` logs every call of the loop in order. */
    method RecordSteps(saver: DataSaver, setParam: ParamId, vals: seq<real>, interDelay: Option<real>,
                       t0: real, steps: seq<Readings>)
      returns (autoranged: seq<seq<Outcome>>, calls: seq<Call>)
      requires |steps| == |vals|
      requires AllAnswer(steps, params, sr830s)
      requires ParamGainsNonZero(params) && LockinGainsNonZero(sr830s)
      requires saver.results == []
      modifies saver
      ensures saver.results == SweepRecords(setParam, vals, t0, steps, params, sr830s)
      ensures AutorangedAll(steps, autoranged)
      ensures calls == SweepCalls(setParam, vals, interDelay, params, sr830s)
    {
      autoranged, calls := [], [];
      for k := 0 to |vals|
        invariant |saver.results| == k
        invariant forall i :: 0 <= i < k ==> saver.results[i] == StepRecordOf(setParam, vals, t0, steps, params, sr830s, i)
        invariant AutorangedAll(steps[..k], autoranged)
        invariant calls == SweepCalls(setParam, vals[..k], interDelay, params, sr830s)
      {
        var outcomes, stepCalls := Step(saver, setParam, vals[k], interDelay, t0, steps[k]);
        AutorangedAllStep(steps, autoranged, k, outcomes);
        autoranged := autoranged + [outcomes];
        calls := calls + stepCalls;
        assert vals[..k + 1][..k] == vals[..k];
      }
      assert vals[..|vals|] == vals;
      SweepRecordsAt(setParam, vals, t0, steps, params, sr830s);
    }

    /** sweep(set_param, vals, inter_delay): for each setpoint in order, set it,
        pause, sample every followed entity and add the record to the dataset.
        The instruments' answers are `steps` (one per setpoint), the monotonic
        clock reads t0 at the start and tEnd at the end. Returns the data saver,
        the autorange outcome of each lock-in at each step, the log of the
        loop's calls, and the printed h/m/s triples. */
    method Run(setParam: ParamId, vals: seq<real>, t0: real, steps: seq<Readings>, tEnd: real,
               interDelay: Option<real> := None)
      returns (saver: DataSaver, autoranged: seq<seq<Outcome>>, calls: seq<Call>,
               estimate: Option<Hms>, completed: Hms)
      requires |steps| == |vals|
      requires AllAnswer(steps, params, sr830s)
      requires ParamGainsNonZero(params) && LockinGainsNonZero(sr830s)
      ensures fresh(saver)
      ensures saver.schema == Schema([setParam], params, sr830s)
      ensures saver.results == SweepRecords(setParam, vals, t0, steps, params, sr830s)
      ensures AutorangedAll(steps, autoranged)
      ensures calls == SweepCalls(setParam, vals, interDelay, params, sr830s)
      ensures estimate == if interDelay.Some? then Some(ToHms(MinimumDuration(|vals|, interDelay.value))) else None
      ensures completed == ToHms(tEnd - t0)
    {
      estimate := None;
      if interDelay.Some? {
        estimate := Some(ToHms(MinimumDuration(|vals|, interDelay.value)));
      }
      var meas := CreateMeasurement([setParam]);
      saver := meas.Open();
      autoranged, calls := RecordSteps(saver, setParam, vals, interDelay, t0, steps);
      completed := ToHms(tEnd - t0);
    }
  }
}

=== FILE: trace.dfy ===
/** The order in which one sweep talks to the clock, the instruments and the
    dataset: a log of calls, as a function of the setpoints and the registry. */
module Trace {
  import opened Instruments
  import opened Duration

  /** One interaction of the sweep loop with the outside world. */
  datatype Call =
    | Clock                            // time.monotonic(), for the step's elapsed time
    | Set(param: ParamId, value: real) // set_param.set(setpoint)
    | Pause(delay: real)               // plt.pause(inter_delay)
    | Read(entity: Entity)             // p.get() of a followed parameter
    | AutorangeLockin(lockin: LockinId)    // _autorange_srs(l, 3)
    | Snap(lockin: LockinId)           // l.snap('x', 'y')
    | AddResult                        // datasaver.add_result(*data)

  /** p.get() for each followed parameter, in registry order. */
  function ReadCalls(params: seq<FollowedParam>): seq<Call> {
    if params == [] then []
    else
      var n := |params| - 1;
      ReadCalls(params[..n]) + [Read(params[n].param)]
  }

  /** Autorange, then snap, for each followed lock-in, in registry order. */
  function LockinCalls(lockins: seq<FollowedLockin>): seq<Call> {
    if lockins == [] then []
    else
      var n := |lockins| - 1;
      LockinCalls(lockins[..n]) + [AutorangeLockin(lockins[n].lockin), Snap(lockins[n].lockin)]
  }

  /** The instrument calls made while building one record. */
  function SampleCalls(params: seq<FollowedParam>, lockins: seq<FollowedLockin>): seq<Call> {
    ReadCalls(params) + LockinCalls(lockins)
  }

  /** The pause of one step, if there is an inter_delay. */
  function PauseCalls(interDelay: Option<real>): seq<Call> {
    if interDelay.Some? then [Pause(interDelay.value)] else []
  }

  /** Every call of one step of the sweep loop, in order. */
  function StepCalls(setParam: ParamId, setpoint: real, interDelay: Option<real>,
                     params: seq<FollowedParam>, lockins: seq<FollowedLockin>): seq<Call> {
    [Clock, Set(setParam, setpoint)] + PauseCalls(interDelay) + SampleCalls(params, lockins) + [AddResult]
  }

  /** Every call of the sweep loop over `vals`, in order. */
  function SweepCalls(setParam: ParamId, vals: seq<real>, interDelay: Option<real>,
                      params: seq<FollowedParam>, lockins: seq<FollowedLockin>): seq<Call> {
    if vals == [] then []
    else
      var n := |vals| - 1;
      SweepCalls(setParam, vals[..n], interDelay, params, lockins)
        + StepCalls(setParam, vals[n], interDelay, params, lockins)
  }

  /** How many calls one step makes. */
  function StepLength(interDelay: Option<real>, params: seq<FollowedParam>, lockins: seq<FollowedLockin>): nat {
    3 + |PauseCalls(interDelay)| + |params| + 2 * |lockins|
  }

  lemma {:induction false} ReadCallsAt(params: seq<FollowedParam>)
    ensures |ReadCalls(params)| == |params|
    ensures forall i :: 0 <= i < |params| ==> ReadCalls(params)[i] == Read(params[i].param)
  {
    if params != [] {
      ReadCallsAt(params[..|params| - 1]);
    }
  }

  lemma {:induction false} LockinCallsAt(lockins: seq<FollowedLockin>)
    ensures |LockinCalls(lockins)| == 2 * |lockins|
    ensures forall j :: 0 <= j < |lockins| ==>
      && LockinCalls(lockins)[2 * j] == AutorangeLockin(lockins[j].lockin)
      && LockinCalls(lockins)[2 * j + 1] == Snap(lockins[j].lockin)
  {
    if lockins != [] {
      LockinCallsAt(lockins[..|lockins| - 1]);
    }
  }

  /** Building a record reads every followed parameter first, in registry order,
      then autoranges and snaps each lock-in in turn. */
  lemma SampleOrder(params: seq<FollowedParam>, lockins: seq<FollowedLockin>)
    ensures var s, p := SampleCalls(params, lockins), |params|;
      && |s| == |params| + 2 * |lockins|
      && (forall i :: 0 <= i < |params| ==> s[i] == Read(params[i].param))
      && (forall j :: 0 <= j < |lockins| ==>
            s[p + 2 * j] == AutorangeLockin(lockins[j].lockin) && s[p + 2 * j + 1] == Snap(lockins[j].lockin))
  {
    ReadCallsAt(params);
    LockinCallsAt(lockins);
  }

  /** Every snap of a lock-in comes right after that lock-in was autoranged,
      and every autorange is followed at once by a snap of the same lock-in. */
  lemma SnapFollowsAutorange(params: seq<FollowedParam>, lockins: seq<FollowedLockin>)
    ensures var s := SampleCalls(params, lockins);
      && (forall k :: 0 <= k < |s| && s[k].Snap? ==> 0 < k && s[k - 1] == AutorangeLockin(s[k].lockin))
      && (forall k :: 0 <= k < |s| && s[k].AutorangeLockin? ==> k + 1 < |s| && s[k + 1] == Snap(s[k].lockin))
  {
    var s, p := SampleCalls(params, lockins), |params|;
    SampleOrder(params, lockins);
    forall k | 0 <= k < |s| && s[k].Snap?
      ensures 0 < k && s[k - 1] == AutorangeLockin(s[k].lockin)
    {
      LockinAt(params, lockins, k);
    }
    forall k | 0 <= k < |s| && s[k].AutorangeLockin?
      ensures k + 1 < |s| && s[k + 1] == Snap(s[k].lockin)
    {
      LockinAt(params, lockins, k);
    }
  }

  /** Position k of a sample log is a read, or the autorange or the snap of lock-in (k - |params|) / 2. */
  lemma LockinAt(params: seq<FollowedParam>, lockins: seq<FollowedLockin>, k: nat)
    requires k < |SampleCalls(params, lockins)|
    ensures var s, p, j := SampleCalls(params, lockins), |params|, (k - |params|) / 2;
      || (k < p && s[k] == Read(params[k].param))
      || (p <= k && j < |lockins| && k == p + 2 * j && k + 1 < |s| && s[k] == AutorangeLockin(lockins[j].lockin) && s[k + 1] == Snap(lockins[j].lockin))
      || (p <= k && j < |lockins| && k == p + 2 * j + 1 && 0 < k && s[k - 1] == AutorangeLockin(lockins[j].lockin) && s[k] == Snap(lockins[j].lockin))
  {
    var s, p := SampleCalls(params, lockins), |params|;
    SampleOrder(params, lockins);
    if p <= k {
      var j := (k - p) / 2;
      assert k == p + 2 * j || k == p + 2 * j + 1;
      assert s[p + 2 * j] == AutorangeLockin(lockins[j].lockin);
      assert s[p + 2 * j + 1] == Snap(lockins[j].lockin);
    }
  }

  lemma StepCallsLength(setParam: ParamId, setpoint: real, interDelay: Option<real>,
                        params: seq<FollowedParam>, lockins: seq<FollowedLockin>)
    ensures |StepCalls(setParam, setpoint, interDelay, params, lockins)| == StepLength(interDelay, params, lockins)
  {
    SampleOrder(params, lockins);
  }

  /** The sweep makes the calls of step 0, then those of step 1, and so on:
      the calls of the step at vals[k] come right after those of the steps before it. */
  lemma {:induction false} SweepCallsAt(setParam: ParamId, vals: seq<real>, interDelay: Option<real>,
                                        params: seq<FollowedParam>, lockins: seq<FollowedLockin>)
    ensures forall k :: 0 <= k < |vals| ==>
      SweepCalls(setParam, vals[..k], interDelay, params, lockins)
        + StepCalls(setParam, vals[k], interDelay, params, lockins)
      <= SweepCalls(setParam, vals, interDelay, params, lockins)
  {
    if vals != [] {
      var n := |vals| - 1;
      var prev := SweepCalls(setParam, vals[..n], interDelay, params, lockins);
      var s := SweepCalls(setParam, vals, interDelay, params, lockins);
      SweepCallsAt(setParam, vals[..n], interDelay, params, lockins);
      forall k | 0 <= k < |vals|
        ensures SweepCalls(setParam, vals[..k], interDelay, params, lockins)
                  + StepCalls(setParam, vals[k], interDelay, params, lockins) <= s
      {
        if k < n {
          assert vals[..n][..k] == vals[..k] && vals[..n][k] == vals[k];
          assert prev <= s;
        }
      }
    }
  }

  /** Every step makes the same number of calls. */
  lemma {:induction false} SweepCallsLength(setParam: ParamId, vals: seq<real>, interDelay: Option<real>,
                                            params: seq<FollowedParam>, lockins: seq<FollowedLockin>)
    ensures |SweepCalls(setParam, vals, interDelay, params, lockins)| == |vals| * StepLength(interDelay, params, lockins)
  {
    if vals != [] {
      var n := |vals| - 1;
      SweepCallsLength(setParam, vals[..n], interDelay, params, lockins);
      StepCallsLength(setParam, vals[n], interDelay, params, lockins);
      MulSucc(n, StepLength(interDelay, params, lockins));
    }
  }

  lemma MulSucc(n: nat, len: nat)
    ensures (n + 1) * len == n * len + len
  {
  }

  /** Total time spent in the plt.pause(inter_delay) calls of a log. The redraw
      pause and the autorange settling sleeps are not in the log. */
  function PauseTime(calls: seq<Call>): real {
    if calls == [] then 0.0
    else
      var n := |calls| - 1;
      PauseTime(calls[..n]) + (if calls[n].Pause? then calls[n].delay else 0.0)
  }

  lemma {:induction false} PauseTimeAppend(a: seq<Call>, b: seq<Call>)
    ensures PauseTime(a + b) == PauseTime(a) + PauseTime(b)
  {
    if b != [] {
      var n := |b| - 1;
      var last := b[n];
      assert a + b == (a + b[..n]) + [last];
      assert (a + b)[..|a| + n] == a + b[..n];
      PauseTimeAppend(a, b[..n]);
      assert PauseTime(a + b) == PauseTime(a + b[..n]) + (if last.Pause? then last.delay else 0.0);
      assert PauseTime(b) == PauseTime(b[..n]) + (if last.Pause? then last.delay else 0.0);
    } else {
      assert a + b == a;
    }
  }

  lemma {:induction false} NoPausesInSample(params: seq<FollowedParam>, lockins: seq<FollowedLockin>)
    ensures PauseTime(SampleCalls(params, lockins)) == 0.0
    ensures forall c :: c in SampleCalls(params, lockins) ==> !c.Pause?
  {
    var s := SampleCalls(params, lockins);
    SampleOrder(params, lockins);
    forall c | c in s
      ensures !c.Pause?
    {
      var k :| 0 <= k < |s| && s[k] == c;
      if k >= |params| {
        var j := (k - |params|) / 2;
        assert s[|params| + 2 * j] == AutorangeLockin(lockins[j].lockin);
        assert s[|params| + 2 * j + 1] == Snap(lockins[j].lockin);
      }
    }
    NoPausesNoTime(s);
  }

  lemma {:induction false} NoPausesNoTime(calls: seq<Call>)
    requires forall c :: c in calls ==> !c.Pause?
    ensures PauseTime(calls) == 0.0
  {
    if calls != [] {
      var n := |calls| - 1;
      assert calls[n] in calls;
      NoPausesNoTime(calls[..n]);
    }
  }

  /** The plt.pause(inter_delay) calls of one step total inter_delay, or
      nothing without an inter_delay. */
  lemma StepPauseTime(setParam: ParamId, setpoint: real, interDelay: Option<real>,
                      params: seq<FollowedParam>, lockins: seq<FollowedLockin>)
    ensures PauseTime(StepCalls(setParam, setpoint, interDelay, params, lockins))
         == if interDelay.Some? then interDelay.value else 0.0
  {
    var head := [Clock, Set(setParam, setpoint)];
    var sample := SampleCalls(params, lockins);
    NoPausesInSample(params, lockins);
    PauseTimeAppend(head + PauseCalls(interDelay), sample);
    PauseTimeAppend(head + PauseCalls(interDelay) + sample, [AddResult]);
    PauseTimeAppend(head, PauseCalls(interDelay));
    assert PauseTime([AddResult]) == 0.0 by { assert [AddResult][..0] == []; }
    assert PauseTime(head) == 0.0 by { assert head[..1] == [Clock] && [Clock][..0] == []; }
    if interDelay.Some? {
      assert PauseCalls(interDelay)[..0] == [];
    }
  }

  /** The last step of a sweep adds its own inter_delay pause to the pause time. */
  lemma SweepPauseStep(setParam: ParamId, vals: seq<real>, interDelay: Option<real>,
                       params: seq<FollowedParam>, lockins: seq<FollowedLockin>)
    requires vals != []
    ensures PauseTime(SweepCalls(setParam, vals, interDelay, params, lockins))
         == PauseTime(SweepCalls(setParam, vals[..|vals| - 1], interDelay, params, lockins))
            + (if interDelay.Some? then interDelay.value else 0.0)
  {
    var n := |vals| - 1;
    PauseTimeAppend(SweepCalls(setParam, vals[..n], interDelay, params, lockins),
                    StepCalls(setParam, vals[n], interDelay, params, lockins));
    StepPauseTime(setParam, vals[n], interDelay, params, lockins);
  }

  /** The printed minimum duration, len(vals) * inter_delay, is exactly the
      total of the sweep's plt.pause(inter_delay) calls. The redraw pause and
      the settling sleeps come on top of it, which is why it is a minimum. */
  lemma {:induction false} EstimateIsTotalPause(setParam: ParamId, vals: seq<real>, interDelay: real,
                                                params: seq<FollowedParam>, lockins: seq<FollowedLockin>)
    ensures PauseTime(SweepCalls(setParam, vals, Some(interDelay), params, lockins))
         == MinimumDuration(|vals|, interDelay)
  {
    if vals != [] {
      var n := |vals| - 1;
      EstimateIsTotalPause(setParam, vals[..n], interDelay, params, lockins);
      SweepPauseStep(setParam, vals, Some(interDelay), params, lockins);
      MinimumDurationStep(n, interDelay);
    }
  }

  /** Without an inter_delay the sweep makes no plt.pause(inter_delay) call. */
  lemma {:induction false} NoDelayNoPause(setParam: ParamId, vals: seq<real>,
                                          params: seq<FollowedParam>, lockins: seq<FollowedLockin>)
    ensures forall c :: c in SweepCalls(setParam, vals, None, params, lockins) ==> !c.Pause?
    ensures PauseTime(SweepCalls(setParam, vals, None, params, lockins)) == 0.0
  {
    var s := SweepCalls(setParam, vals, None, params, lockins);
    if vals != [] {
      var n := |vals| - 1;
      var prev, last := SweepCalls(setParam, vals[..n], None, params, lockins),
                        StepCalls(setParam, vals[n], None, params, lockins);
      NoDelayNoPause(setParam, vals[..n], params, lockins);
      NoPausesInSample(params, lockins);
      assert s == prev + last;
      assert last == [Clock, Set(setParam, vals[n])] + SampleCalls(params, lockins) + [AddResult];
    }
    NoPausesNoTime(s);
  }
}
